=== FILE: README.md ===
# pr-manager decision logic in Dafny

A model of the pure decision logic inside `pr-manager`, a terminal dashboard.
The dashboard lists the user's open pull requests, shows whether each one is
mergeable and up to date with its base branch, and lets the user refresh the
list, open a pull request in the browser, or ask the service to rebase it.
Everything around this logic is left out: the async runtime, the `gh` and
`open` subprocesses, and the terminal UI.

Modules, following the program's structure:

- `Wrappers`: `Option`.
- `Models` (src/models.rs) holds the domain records:
  - the `Mergeable` verdict and the `CheckStatus` conclusion, each with its wire-name table and a decoder;
  - `CheckData`, with its two shapes and the uniform `CheckName` and `StatusOf` accessors;
  - `PullRequest` and the three check aggregates (`ChecksPassed`, `ChecksPassing`, `ChecksScheduled`), written as the folds `AnyFailure`, `CountSuccess` and `CountNotSkipped`.
- `Text`: `str::split` on a character and `join` with a string. Also proves that the two together replace one character by another.
- `Sync` (`App::row`): the status label of a pull request. It depends on the raw verdict and on the base branch's entry in the commit index.
- `Reconciler` (`AppState`, `AppEvent`, `handle_app_event`): `Apply(state, event)`.
- `Tasks` holds the background work and what comes back from it:
  - the work the dashboard spawns;
  - the event each finished task sends (the outcome mapping of `rebase`, `fetch_last_commit` and `fetch_prs`);
  - the rebase guard.
- `Dispatcher` (`handle_term_event`): a terminal event, the state and the selected row give a new state, a new selection and at most one spawned task.
- `Scheduler` (`App::run`): the loop as a fold of `Step` over a sequence of ready sources. It stops once the termination flag is set.

The program's hazards are modelled as they are and not repaired:

- The application code never re-clamps the selection when a fetched list is shorter than before.
- Enter and `s` index the list with the selection. `Dispatchable` requires the selection to be in range for them, so that the indexing stays inside the list.
- Down with a row selected on an empty list computes `len() - 1` on an unsigned zero. This panics in a debug build and wraps around in a release build. `MoveDown` requires a non-empty list in that case.

The lemmas `DownAtStartupSelectsMissingRow` and `DownBeforeFirstListing` show that a selection past the end is reachable from startup without a redraw in between: one Down press before the first listing arrives is enough. `ShorterListStrandsSelection` shows that any fetched list no longer than the selection strands it. The bad state holds until the next redraw, and the table widget may adjust the selection while drawing (see `Scheduler.Step` under "## Left out").

Behaviour of the code worth noting:

- A failed listing or branch lookup is reported as an empty list or an empty commit, never as an error message (`FetchDeliveryKeepsMessage`, `FetchFailuresNeverShown`). After the lookup of `master` fails, the index holds `master → ""`, so every mergeable pull request on `master` with a non-empty base commit shows Behind rather than Unsynced (`FailedLookupShowsBehind`).
- `CheckStatus` has no Cancelled value, and checks have no queued/in-progress rollup.
- The only branch looked up, once at startup, is literally `master`. So a mergeable pull request based on any other branch always shows as Unsynced (`OtherBasesStayUnsynced`).

## Model

| member | source | states |
|---|---|---|
| `Models.ParseMergeable` | src/models.rs:3-11 | decoding yields a verdict exactly when the string is that verdict's wire name (MERGEABLE, CONFLICTING, UNKNOWN); every other string is rejected |
| `Models.MergeableRoundTrip` | src/models.rs:3-11 | decoding the wire name of a verdict gives the verdict back |
| `Models.ParseCheckStatus` | src/models.rs:99-109 | decoding yields a conclusion exactly when the string is its wire name (SUCCESS, FAILURE, SKIPPED, and the empty string for Unknown); every other string is rejected |
| `Models.CheckStatusRoundTrip` | src/models.rs:99-109 | decoding the wire name of a conclusion gives it back |
| `Models.AccessorsUniform` | src/models.rs:126-139 | `name` reads the run's name or the context's `context`, `status` its conclusion or state, so both shapes look alike through the accessors |
| `Models.AnyFailure` | src/models.rs:54-59 | true exactly when some check's status is Failure (equivalently, Failure occurs among the statuses) |
| `Models.CountSuccess` | src/models.rs:61-66 | the count equals the number of occurrences of Success among the statuses and is at most the number of checks |
| `Models.CountNotSkipped` | src/models.rs:68-73 | the count equals the number of checks minus the occurrences of Skipped, and is at most the number of checks |
| `Models.NoChecksPassed` | src/models.rs:54-73 | with no checks, the pull request has passed and both counts are zero |
| `Models.SuccessAtMostNotSkipped` | src/models.rs:61-73 | over any check list, successes never outnumber non-skipped checks |
| `Models.PassingAtMostScheduled` | src/models.rs:61-73 | passing ≤ scheduled ≤ number of checks |
| `Models.FailureIsScheduled` | src/models.rs:54-73 | a check list with a failure has at least one non-skipped check |
| `Models.FailedIsScheduled` | src/models.rs:54-73 | a pull request whose checks did not pass has at least one scheduled check |
| `Text.Split` | src/main.rs:307 | splitting gives one more piece than there are separators; no piece holds the separator; joining with the separator restores the input |
| `Text.JoinSplitIsReplace` | src/main.rs:307 | splitting on a character and joining with another replaces every occurrence of the first by the second and keeps every other character |
| `Reconciler.OneLine` | src/main.rs:307 | the displayed message has the same length as the received one, no line break, and each line break replaced by a space |
| `Reconciler.Apply` | src/main.rs:295-309 | each event writes one field: a listing replaces the list; a commit upserts one index entry and leaves every other key as it was; an error sets the flattened message. The termination flag is never touched and the index only grows |
| `Reconciler.LastFetchWins` | src/main.rs:297-299 | two listings in a row leave exactly the second list |
| `Reconciler.BranchCommitIdempotent` | src/main.rs:301-305 | recording the same branch commit twice equals recording it once |
| `Reconciler.LastErrorWins` | src/main.rs:307 | only the most recent error message is kept |
| `Reconciler.ErrorFlattened` | src/main.rs:307 | after an error, each displayed character is the received one, with line breaks as spaces |
| `Reconciler.TwoLineError` | src/main.rs:307 | a message equal to "line1\nline2" is displayed as "line1 line2" |
| `Sync.Derive` | src/main.rs:97-110 | UpToDate exactly when mergeable and the base branch's known commit equals the base commit; Behind when known and different; Unsynced when mergeable and the base is unknown; Conflict exactly on a conflicting verdict; Unknown exactly on an unknown verdict |
| `Sync.LabelsDistinct` | src/main.rs:104-110 | distinct statuses get distinct labels |
| `Sync.DependsOnlyOnBaseEntry` | src/main.rs:97-110 | two indexes that agree on the base branch's entry give the same status |
| `Sync.VerdictWinsOverIndex` | src/main.rs:104-110 | a conflicting or unknown verdict gives Conflict or Unknown whatever the index holds |
| `Sync.AbsentBaseNeverCompared` | src/main.rs:100-109 | with the base branch absent, the status is never UpToDate or Behind |
| `Sync.BaseBranchScenario` | src/main.rs:100-110 | PR #42 at `abc123` on `main`: UpToDate with `main → abc123`, Behind with `main → def456`, Unsynced without `main` |
| `Tasks.ListEvent` | src/main.rs:238-241 | a listing always sends FetchedPRs: the fetched list, or the empty list on failure |
| `Tasks.CommitEvent` | src/main.rs:226-231 | a lookup always sends FetchedBranchCommit for its branch: the commit, or the empty string on failure |
| `Tasks.RebaseEvent` | src/main.rs:207-217 | a rebase sends nothing exactly on a successful exit; Error(stderr) on a bad exit; Error(error text) when the command could not run |
| `Tasks.CompletionEvent` | src/main.rs:178-241 | listings and lookups always send their data event; opening a URL sends nothing; only a rebase can send an Error |
| `Tasks.RebaseTask` | src/main.rs:186-191 | a rebase task is spawned exactly for a mergeable pull request, carrying its number |
| `Dispatcher.MoveUp` | src/main.rs:255-263 | no change on an empty list; otherwise row 0 from no selection, or one row up stopping at the first; an in-range selection stays in range |
| `Dispatcher.MoveDown` | src/main.rs:265-275 | row 0 from no selection; one row down while there is a next row, else the last row (no wraparound); lands in range on any non-empty list; defined on an empty list only without a selection |
| `Dispatcher.Dispatch` | src/main.rs:244-293 | never changes PRs, index or error message. q/Q sets the flag; r/R spawns a listing; Up/Down move the selection; Enter opens the selected URL; `s` applies the rebase guard. Only `s` on a mergeable selected row spawns a rebase. Other keys and non-key events change nothing |
| `Dispatcher.RebaseNotMergeableIsNoOp` | src/main.rs:186-191 | `s` on a pull request that is not mergeable spawns nothing and changes nothing |
| `Dispatcher.DownAtStartupSelectsMissingRow` | src/main.rs:265-275 | Down on the empty startup list selects row 0. After that, Down underflows and Enter or `s` would index past the end |
| `Dispatcher.ShorterListStrandsSelection` | src/main.rs:297-299 | a fetched list no longer than the selection leaves it out of range, so Enter and `s` would panic |
| `Dispatcher.UpDoesNotClamp` | src/main.rs:255-275 | from a selection more than one row past the end of a non-empty list, Up moves back one row and stays out of range, while Down lands on the last row |
| `Scheduler.Step` | src/main.rs:85-91 | only terminal input moves the selection; the flag is set only by a quit key; the index only grows; the refresh tick spawns a listing and nothing else; a finished or lost task is exactly the one taken out of the pending tasks |
| `Scheduler.Run` | src/main.rs:85-92 | inputs are left over only after termination; termination comes only from a quit key, the first one among the inputs, which is the last input consumed; consuming a quit key always terminates the loop; a terminated loop consumes nothing |
| `Scheduler.StepKeepsOnlyDefaultBranch` | src/main.rs:82-83 | one iteration never adds a branch other than `master` to the index or the pending lookups |
| `Scheduler.RunKeepsOnlyDefaultBranch` | src/main.rs:82-91 | any run keeps the index and pending lookups to `master` |
| `Scheduler.OtherBasesStayUnsynced` | src/main.rs:82-83 | from startup, a mergeable pull request whose base is not `master` always shows Unsynced |
| `Scheduler.StepKeepsQuiet` | src/main.rs:207-241 | from a state with no error and no rebase pending, one iteration without an `s` key keeps it so |
| `Scheduler.RunKeepsQuiet` | src/main.rs:207-241 | any run without an `s` key keeps the error message empty and no rebase pending |
| `Scheduler.FetchDeliveryKeepsMessage` | src/main.rs:226-241 | in any run, a finished listing or branch lookup, failed or not, leaves the error message unchanged |
| `Scheduler.FetchFailuresNeverShown` | src/main.rs:226-241 | from startup, in runs without an `s` key, no error message ever appears, whatever the listings and lookups return |
| `Scheduler.FailedLookupShowsBehind` | src/main.rs:226-231 | after the startup lookup of `master` fails, a mergeable pull request on `master` with a non-empty base commit shows Behind, not Unsynced |
| `Scheduler.DownBeforeFirstListing` | src/main.rs:265-275 | Down right after startup selects row 0 of an empty list, after which Enter is not safe |

## Left out

- The `tokio::select!` race, the 50 ms redraw and 60 s refresh timers, and the `JoinSet`: the order in which sources become ready is the input sequence of `Scheduler.Run`.
- The broadcast channel (capacity 32): sending and receiving are one step. A receiver that lags and misses events is represented only by the `Lost` input.
- The `gh` and `open` subprocesses, their argument lists, `fetch_current_repo`, lossy UTF-8 decoding and JSON parsing of full records: each task is represented only by its success or failure outcome.
- Only the enum rename tables of the serde mapping are modelled. The `__typename` tag of `CheckData`, field defaults, and the `Branch`, `Commit`, `Owner` and `Repo` records are parsing details.
- Pull request fields the dashboard never reads (`id`, `node_id`, `state`, `locked`, `body`, the timestamps) are omitted.
- Scheduler.Step: a redraw is assumed to leave the selection unchanged. The table widget receives the selection with write access at src/main.rs:172 and may adjust it, but that library is not part of this model.
- Rendering is left out: colours, layout, draft dimming, the header and the error footer. A redraw is a no-op on the state, and a drawing error that ends the program is not modelled.
- Terminal setup and restore, command-line parsing and `main` are left out.
- Integer widths: pull request numbers and counts are unbounded. The one place where the width matters, the unsigned `len() - 1`, is a precondition of `MoveDown`.

=== FILE: dispatcher.dfy ===
/** Terminal input handling (`App::handle_term_event` in src/main.rs): a key,
    the state and the table's selected row give a new state, a new selection
    and at most one spawned task. PR data is never changed here.

    Two hazards of the program are kept as preconditions, not repaired:
    Down with a selected row on an empty list computes `len() - 1` on an
    unsigned zero, and Enter or `s` index the list with the selection, which
    nothing keeps below the list's length. */
module Dispatcher {
  import opened Wrappers
  import Models
  import opened Reconciler
  import opened Tasks

  /** The key codes the dispatcher distinguishes; every other key is `OtherKey`. */
  datatype KeyCode = Char(c: char) | Up | Down | Enter | OtherKey

  /** A terminal event: a key press, or anything else (mouse, resize, focus, paste). */
  datatype TermEvent = Key(code: KeyCode) | NonKey

  datatype Reaction = Reaction(state: AppState, selection: Option<nat>, spawned: Option<Task>)

  predicate IsQuit(ev: TermEvent)
  {
    ev == Key(Char('q')) || ev == Key(Char('Q'))
  }

  predicate IsRefresh(ev: TermEvent)
  {
    ev == Key(Char('r')) || ev == Key(Char('R'))
  }

  /** The keys with a binding. */
  predicate Bound(ev: TermEvent)
  {
    IsQuit(ev) || IsRefresh(ev) || ev in {Key(Up), Key(Down), Key(Enter), Key(Char('s'))}
  }

  /** The selection names a row of a list of length `len`, or nothing. */
  predicate InRange(sel: Option<nat>, len: nat)
  {
    sel.None? || sel.value < len
  }

  /** Up: the previous row, stopping at the first; nothing happens on an empty list. */
  function MoveUp(len: nat, sel: Option<nat>): (r: Option<nat>)
    ensures len == 0 ==> r == sel
    ensures len > 0 ==> r.Some?
    ensures len > 0 && sel.None? ==> r.value == 0
    ensures len > 0 && sel.Some? ==> r.value <= sel.value <= r.value + 1
    ensures len > 0 && sel.Some? && sel.value > 0 ==> r.value < sel.value
    ensures len > 0 && InRange(sel, len) ==> InRange(r, len)
  {
    if len == 0 then sel
    else
      match sel
      case None => Some(0)
      case Some(i) => Some(if i > 0 then i - 1 else 0)
  }

  /** Down: the next row, stopping at the last, without wrapping around. With a
      row selected, the last index is computed as `len - 1` on an unsigned
      integer, which is why an empty list is excluded then. */
  function MoveDown(len: nat, sel: Option<nat>): (r: Option<nat>)
    requires sel.Some? ==> len > 0
    ensures r.Some?
    ensures sel.None? ==> r.value == 0
    ensures len > 0 ==> InRange(r, len)
    ensures sel.Some? ==> r.value <= sel.value + 1
    ensures sel.Some? && sel.value + 1 < len ==> r.value == sel.value + 1
    ensures sel.Some? && sel.value + 1 >= len ==> r.value == len - 1
  {
    match sel
    case None => Some(0)
    case Some(i) => if i < len - 1 then Some(i + 1) else Some(len - 1)
  }

  /** The input neither underflows the unsigned `len() - 1` nor indexes the
      list past its end. */
  predicate Dispatchable(st: AppState, sel: Option<nat>, ev: TermEvent)
  {
    match ev
    case Key(Down) => sel.Some? ==> |st.prs| > 0
    case Key(Enter) => InRange(sel, |st.prs|)
    case Key(Char('s')) => InRange(sel, |st.prs|)
    case _ => true
  }

  function Dispatch(st: AppState, sel: Option<nat>, ev: TermEvent): (r: Reaction)
    requires Dispatchable(st, sel, ev)
    ensures r.state.prs == st.prs && r.state.branches == st.branches
    ensures r.state.errorMessage == st.errorMessage
    ensures r.state.done <==> st.done || IsQuit(ev)
    ensures IsQuit(ev) ==> r.selection == sel && r.spawned.None?
    ensures IsRefresh(ev) ==> r.selection == sel && r.spawned == Some(FetchPRs)
    ensures ev == Key(Up) ==> r.selection == MoveUp(|st.prs|, sel) && r.spawned.None?
    ensures ev == Key(Down) ==> r.selection == MoveDown(|st.prs|, sel) && r.spawned.None?
    ensures ev == Key(Enter) ==>
      r.selection == sel && r.spawned == (if sel.None? then None else Some(OpenUrl(st.prs[sel.value].url)))
    ensures ev == Key(Char('s')) ==>
      r.selection == sel && r.spawned == (if sel.None? then None else RebaseTask(st.prs[sel.value]))
    ensures !Bound(ev) ==> r == Reaction(st, sel, None)
    ensures r.spawned.Some? && r.spawned.value.RebasePR? ==>
      ev == Key(Char('s')) && sel.Some? && st.prs[sel.value].mergeable.Ok?
    ensures r.spawned.Some? ==> !r.spawned.value.FetchBranch?
  {
    match ev
    case NonKey => Reaction(st, sel, None)
    case Key(code) =>
      match code
      case Char(c) =>
        if c == 'r' || c == 'R' then Reaction(st, sel, Some(FetchPRs))
        else if c == 'q' || c == 'Q' then Reaction(st.(done := true), sel, None)
        else if c == 's' then
          Reaction(st, sel, if sel.None? then None else RebaseTask(st.prs[sel.value]))
        else Reaction(st, sel, None)
      case Up => Reaction(st, MoveUp(|st.prs|, sel), None)
      case Down => Reaction(st, MoveDown(|st.prs|, sel), None)
      case Enter => Reaction(st, sel, if sel.None? then None else Some(OpenUrl(st.prs[sel.value].url)))
      case OtherKey => Reaction(st, sel, None)
  }

  /** Asking to rebase a pull request that is not mergeable does nothing. */
  lemma RebaseNotMergeableIsNoOp(st: AppState, i: nat)
    requires i < |st.prs| && !st.prs[i].mergeable.Ok?
    ensures Dispatch(st, Some(i), Key(Char('s'))) == Reaction(st, Some(i), None)
  {
  }

  /** Down before the first listing arrives selects row 0 of an empty list;
      after that, Down underflows and Enter or `s` index past the end. */
  lemma DownAtStartupSelectsMissingRow()
    ensures var r := Dispatch(Initial, None, Key(Down));
      && r.selection == Some(0) && r.state.prs == []
      && !Dispatchable(r.state, r.selection, Key(Down))
      && !Dispatchable(r.state, r.selection, Key(Enter))
      && !Dispatchable(r.state, r.selection, Key(Char('s')))
  {
  }

  /** A fetched list shorter than the selection leaves the selection pointing
      past its end: nothing re-clamps it. */
  lemma ShorterListStrandsSelection(st: AppState, k: nat, prs: seq<Models.PullRequest>)
    requires |prs| <= k
    ensures var after := Apply(st, FetchedPRs(prs));
      && !InRange(Some(k), |after.prs|)
      && !Dispatchable(after, Some(k), Key(Enter))
      && !Dispatchable(after, Some(k), Key(Char('s')))
  {
  }

  /** From a selection more than one row past the end, Up moves back by one
      row and stays out of range, while Down lands on the last row. */
  lemma UpDoesNotClamp(len: nat, i: nat)
    requires 0 < len < i
    ensures MoveUp(len, Some(i)) == Some(i - 1) && !InRange(MoveUp(len, Some(i)), len)
    ensures MoveDown(len, Some(i)) == Some(len - 1)
  {
  }
}

=== FILE: models.dfy ===
/** The domain records of the dashboard (src/models.rs): the hosting service's
    merge verdict, CI check records, and the per-pull-request check aggregates. */
module Models {
  import opened Wrappers

  /** The service's own conflict verdict for a pull request. */
  datatype Mergeable = Ok | Conflict | Unknown

  /** Wire name of each verdict. */
  function MergeableName(m: Mergeable): string
  {
    match m
    case Ok => "MERGEABLE"
    case Conflict => "CONFLICTING"
    case Unknown => "UNKNOWN"
  }

  /** Decodes a verdict from its wire name; the match is exact, so every
      string outside the table is rejected. */
  function ParseMergeable(s: string): (r: Option<Mergeable>)
    ensures forall m :: r == Some(m) <==> MergeableName(m) == s
  {
    if s == "MERGEABLE" then Some(Ok)
    else if s == "CONFLICTING" then Some(Conflict)
    else if s == "UNKNOWN" then Some(Mergeable.Unknown)
    else None
  }

  lemma MergeableRoundTrip(m: Mergeable)
    ensures ParseMergeable(MergeableName(m)) == Some(m)
  {
  }

  /** Conclusion of one CI check. An empty wire name means "not concluded". */
  datatype CheckStatus = Success | Failure | Skipped | Unknown

  function CheckStatusName(s: CheckStatus): string
  {
    match s
    case Success => "SUCCESS"
    case Failure => "FAILURE"
    case Skipped => "SKIPPED"
    case Unknown => ""
  }

  function ParseCheckStatus(s: string): (r: Option<CheckStatus>)
    ensures forall c :: r == Some(c) <==> CheckStatusName(c) == s
  {
    if s == "SUCCESS" then Some(Success)
    else if s == "FAILURE" then Some(Failure)
    else if s == "SKIPPED" then Some(Skipped)
    else if s == "" then Some(CheckStatus.Unknown)
    else None
  }

  lemma CheckStatusRoundTrip(c: CheckStatus)
    ensures ParseCheckStatus(CheckStatusName(c)) == Some(c)
  {
  }

  /** A CI signal: a structured check run, or a legacy commit status context. */
  datatype CheckData =
    | CheckRun(name: string, conclusion: CheckStatus)
    | StatusContext(context: string, state: CheckStatus, targetUrl: string)

  /** Uniform name accessor over both shapes. */
  function CheckName(c: CheckData): string
  {
    match c
    case CheckRun(name, _) => name
    case StatusContext(context, _, _) => context
  }

  /** Uniform verdict accessor over both shapes. */
  function StatusOf(c: CheckData): CheckStatus
  {
    match c
    case CheckRun(_, conclusion) => conclusion
    case StatusContext(_, state, _) => state
  }

  /** A check run and a status context carrying the same name and verdict
      are indistinguishable through the accessors. */
  lemma AccessorsUniform(name: string, s: CheckStatus, url: string)
    ensures CheckName(CheckRun(name, s)) == CheckName(StatusContext(name, s, url)) == name
    ensures StatusOf(CheckRun(name, s)) == StatusOf(StatusContext(name, s, url)) == s
  {
  }

  /** The fields of a pull request the dashboard reads. */
  datatype PullRequest = PullRequest(
    url: string,
    number: int,
    title: string,
    mergeable: Mergeable,
    branch: string,
    baseName: string,
    baseCommit: string,
    draft: bool,
    checks: seq<CheckData>)

  /** The verdicts of `checks`, in order. */
  function Statuses(checks: seq<CheckData>): seq<CheckStatus>
  {
    seq(|checks|, i requires 0 <= i < |checks| => StatusOf(checks[i]))
  }

  lemma StatusesCons(checks: seq<CheckData>)
    requires |checks| > 0
    ensures Statuses(checks) == [StatusOf(checks[0])] + Statuses(checks[1..])
    ensures multiset(Statuses(checks)) == multiset{StatusOf(checks[0])} + multiset(Statuses(checks[1..]))
  {
  }

  /** Whether some check failed (the `any` fold). */
  function AnyFailure(checks: seq<CheckData>): (b: bool)
    ensures b <==> exists i :: 0 <= i < |checks| && StatusOf(checks[i]) == Failure
    ensures b <==> Failure in multiset(Statuses(checks))
    decreases |checks|
  {
    if |checks| == 0 then false
    else
      StatusesCons(checks);
      assert forall i :: 1 <= i < |checks| ==> checks[i] == checks[1..][i - 1];
      StatusOf(checks[0]) == Failure || AnyFailure(checks[1..])
  }

  /** Number of successful checks (the `filter(..).count()` fold). */
  function CountSuccess(checks: seq<CheckData>): (n: nat)
    ensures n <= |checks|
    ensures n == multiset(Statuses(checks))[Success]
    decreases |checks|
  {
    if |checks| == 0 then 0
    else
      StatusesCons(checks);
      (if StatusOf(checks[0]) == Success then 1 else 0) + CountSuccess(checks[1..])
  }

  /** Number of checks that were not skipped. */
  function CountNotSkipped(checks: seq<CheckData>): (n: nat)
    ensures n <= |checks|
    ensures n == |checks| - multiset(Statuses(checks))[Skipped]
    decreases |checks|
  {
    if |checks| == 0 then 0
    else
      StatusesCons(checks);
      (if StatusOf(checks[0]) != Skipped then 1 else 0) + CountNotSkipped(checks[1..])
  }

  /** No check of the pull request failed. */
  function ChecksPassed(pr: PullRequest): bool
  {
    !AnyFailure(pr.checks)
  }

  /** How many checks of the pull request succeeded. */
  function ChecksPassing(pr: PullRequest): nat
  {
    CountSuccess(pr.checks)
  }

  /** How many checks of the pull request were scheduled (not skipped). */
  function ChecksScheduled(pr: PullRequest): nat
  {
    CountNotSkipped(pr.checks)
  }

  /** A pull request without checks has passed them all. */
  lemma NoChecksPassed(pr: PullRequest)
    requires pr.checks == []
    ensures ChecksPassed(pr)
    ensures ChecksPassing(pr) == ChecksScheduled(pr) == 0
  {
  }

  lemma {:induction false} SuccessAtMostNotSkipped(checks: seq<CheckData>)
    ensures CountSuccess(checks) <= CountNotSkipped(checks)
    decreases |checks|
  {
    if |checks| > 0 {
      SuccessAtMostNotSkipped(checks[1..]);
    }
  }

  /** Every passing check is a scheduled one. */
  lemma PassingAtMostScheduled(pr: PullRequest)
    ensures ChecksPassing(pr) <= ChecksScheduled(pr) <= |pr.checks|
  {
    SuccessAtMostNotSkipped(pr.checks);
  }

  lemma {:induction false} FailureIsScheduled(checks: seq<CheckData>)
    requires AnyFailure(checks)
    ensures CountNotSkipped(checks) >= 1
    decreases |checks|
  {
    if StatusOf(checks[0]) != Failure {
      FailureIsScheduled(checks[1..]);
    }
  }

  /** A failed pull request has at least one scheduled check. */
  lemma FailedIsScheduled(pr: PullRequest)
    requires !ChecksPassed(pr)
    ensures ChecksScheduled(pr) >= 1
  {
    FailureIsScheduled(pr.checks);
  }
}

=== FILE: reconciler.dfy ===
/** The application state and how results of background work change it
    (`AppState`, `AppEvent` and `App::handle_app_event` in src/main.rs). */
module Reconciler {
  import opened Wrappers
  import Models
  import Text

  datatype AppState = AppState(
    prs: seq<Models.PullRequest>,
    branches: map<string, string>,
    errorMessage: Option<string>,
    done: bool)

  /** The default state the application starts from. */
  const Initial: AppState := AppState([], map[], None, false)

  datatype AppEvent =
    | FetchedPRs(prs: seq<Models.PullRequest>)
    | FetchedBranchCommit(branch: string, commit: string)
    | Error(msg: string)

  /** The message as displayed: the pieces between line breaks joined by spaces. */
  function OneLine(msg: string): (m: string)
    ensures m == Text.Replace(msg, '\n', ' ')
    ensures |m| == |msg| && '\n' !in m
  {
    Text.JoinSplitIsReplace(msg, '\n', ' ');
    Text.Join(Text.Split(msg, '\n'), " ")
  }

  /** Each event writes exactly one field; the termination flag is never touched
      and the commit index only ever grows. */
  function Apply(st: AppState, ev: AppEvent): (r: AppState)
    ensures r.done == st.done
    ensures st.branches.Keys <= r.branches.Keys
    ensures ev.FetchedPRs? ==>
      r.prs == ev.prs && r.branches == st.branches && r.errorMessage == st.errorMessage
    ensures ev.FetchedBranchCommit? ==>
      && r.prs == st.prs && r.errorMessage == st.errorMessage
      && r.branches.Keys == st.branches.Keys + {ev.branch}
      && r.branches[ev.branch] == ev.commit
      && forall k :: k in st.branches && k != ev.branch ==> r.branches[k] == st.branches[k]
    ensures ev.Error? ==>
      && r.prs == st.prs && r.branches == st.branches
      && r.errorMessage == Some(Text.Replace(ev.msg, '\n', ' '))
  {
    match ev
    case FetchedPRs(prs) => st.(prs := prs)
    case FetchedBranchCommit(branch, commit) => st.(branches := st.branches[branch := commit])
    case Error(msg) => st.(errorMessage := Some(OneLine(msg)))
  }

  /** A second list replaces the first wholesale: no merging of fetches. */
  lemma LastFetchWins(st: AppState, a: seq<Models.PullRequest>, b: seq<Models.PullRequest>)
    ensures Apply(Apply(st, FetchedPRs(a)), FetchedPRs(b)) == Apply(st, FetchedPRs(b))
    ensures Apply(Apply(st, FetchedPRs(a)), FetchedPRs(b)).prs == b
  {
  }

  /** Recording the same branch commit twice is the same as recording it once. */
  lemma BranchCommitIdempotent(st: AppState, branch: string, commit: string)
    ensures Apply(Apply(st, FetchedBranchCommit(branch, commit)), FetchedBranchCommit(branch, commit))
         == Apply(st, FetchedBranchCommit(branch, commit))
  {
    var once := Apply(st, FetchedBranchCommit(branch, commit));
    var twice := Apply(once, FetchedBranchCommit(branch, commit));
    assert twice.branches == once.branches;
  }

  /** Only the most recent error is kept. */
  lemma LastErrorWins(st: AppState, m1: string, m2: string)
    ensures Apply(Apply(st, Error(m1)), Error(m2)) == Apply(st, Error(m2))
  {
  }

  /** Each displayed character is the received one, with line breaks as spaces. */
  lemma ErrorFlattened(st: AppState, msg: string)
    ensures Apply(st, Error(msg)).errorMessage.Some?
    ensures var m := Apply(st, Error(msg)).errorMessage.value;
      && |m| == |msg| && '\n' !in m
      && forall i :: 0 <= i < |msg| ==> m[i] == (if msg[i] == '\n' then ' ' else msg[i])
  {
  }

  lemma TwoLineError(st: AppState, msg: string)
    requires msg == "line1\nline2"
    ensures Apply(st, Error(msg)).errorMessage == Some("line1 line2")
  {
    assert Text.Replace(msg, '\n', ' ') == "line1 line2";
  }
}

=== FILE: scheduler.dfy ===
/** The main loop (`App::run` in src/main.rs) as a fold over an abstract
    sequence of ready sources: the redraw tick, the auto-refresh tick, a
    terminal event, or a background task finishing. Which source is ready
    first is the input; the race itself, the timers and the channel are not
    modelled. The loop stops as soon as the termination flag is set; tasks
    still pending then are abandoned. */
module Scheduler {
  import opened Wrappers
  import Models
  import Sync
  import opened Reconciler
  import opened Tasks
  import opened Dispatcher

  /** The only branch whose latest commit is ever looked up. */
  const DefaultBranch: string := "master"

  datatype Input =
    | RedrawTick
    | RefreshTick
    | Terminal(event: TermEvent)
    | Delivered(task: nat, outcome: TaskOutcome)
    | Lost(task: nat)

  /** The state, the table's selected row, and the tasks spawned and not yet finished. */
  datatype Loop = Loop(state: AppState, selection: Option<nat>, pending: seq<Task>)

  /** Startup: the default state, no selection, one listing and one lookup of
      the default branch under way. */
  const Start: Loop := Loop(Initial, None, [FetchPRs, FetchBranch(DefaultBranch)])

  /** The pending tasks with the one at `k` taken out. */
  function Without(tasks: seq<Task>, k: nat): (r: seq<Task>)
    requires k < |tasks|
    ensures |r| == |tasks| - 1
    ensures multiset(r) == multiset(tasks) - multiset{tasks[k]}
    ensures forall t :: t in r ==> t in tasks
  {
    assert tasks == tasks[..k] + [tasks[k]] + tasks[k + 1..];
    tasks[..k] + tasks[k + 1..]
  }

  predicate StepDefined(l: Loop, input: Input)
  {
    match input
    case Terminal(ev) => Dispatchable(l.state, l.selection, ev)
    case Delivered(k, outcome) => k < |l.pending| && Fits(l.pending[k], outcome)
    case Lost(k) => k < |l.pending|
    case _ => true
  }

  /** One iteration of the loop. Redrawing changes nothing; the refresh tick
      spawns a listing; a finished task leaves the pending set and its event,
      if any, is applied; a task whose event was lost leaves without effect. */
  function Step(l: Loop, input: Input): (r: Loop)
    requires StepDefined(l, input)
    ensures !input.Terminal? ==> r.selection == l.selection
    ensures r.state.done <==> l.state.done || (input.Terminal? && IsQuit(input.event))
    ensures l.state.branches.Keys <= r.state.branches.Keys
    ensures input.RefreshTick? ==> r.state == l.state && r.pending == l.pending + [FetchPRs]
    ensures input.Delivered? || input.Lost? ==>
      multiset(r.pending) == multiset(l.pending) - multiset{l.pending[input.task]}
  {
    match input
    case RedrawTick => l
    case RefreshTick => l.(pending := l.pending + [FetchPRs])
    case Terminal(ev) =>
      var re := Dispatch(l.state, l.selection, ev);
      Loop(re.state, re.selection, l.pending + (if re.spawned.Some? then [re.spawned.value] else []))
    case Delivered(k, outcome) =>
      var e := CompletionEvent(l.pending[k], outcome);
      Loop(if e.Some? then Apply(l.state, e.value) else l.state, l.selection, Without(l.pending, k))
    case Lost(k) => l.(pending := Without(l.pending, k))
  }

  /** The inputs can be processed from `l` without a panic. */
  predicate Runnable(l: Loop, inputs: seq<Input>)
    decreases |inputs|
  {
    |inputs| == 0 || l.state.done ||
    (StepDefined(l, inputs[0]) && Runnable(Step(l, inputs[0]), inputs[1..]))
  }

  /** Runs the loop over `inputs`, stopping once the termination flag is set;
      returns the final loop and the number of inputs consumed. Inputs are
      left over only when the loop has terminated, and it terminates only by
      a quit key: the first one among the inputs, which is then the last
      input consumed. Consuming a quit key always terminates the loop. */
  function Run(l: Loop, inputs: seq<Input>): (r: (Loop, nat))
    requires Runnable(l, inputs)
    ensures r.1 <= |inputs|
    ensures r.1 < |inputs| ==> r.0.state.done
    ensures l.state.done ==> r == (l, 0)
    ensures r.0.state.done && !l.state.done ==>
      r.1 > 0 && inputs[r.1 - 1].Terminal? && IsQuit(inputs[r.1 - 1].event)
    ensures forall i :: 0 <= i < r.1 - 1 ==> !(inputs[i].Terminal? && IsQuit(inputs[i].event))
    ensures r.1 > 0 && inputs[r.1 - 1].Terminal? && IsQuit(inputs[r.1 - 1].event) ==> r.0.state.done
    decreases |inputs|
  {
    if |inputs| == 0 || l.state.done then (l, 0)
    else
      var (f, n) := Run(Step(l, inputs[0]), inputs[1..]);
      (f, n + 1)
  }

  /** No branch other than the default one is known or being looked up. */
  predicate OnlyDefaultBranch(l: Loop)
  {
    && l.state.branches.Keys <= {DefaultBranch}
    && forall t :: t in l.pending && t.FetchBranch? ==> t.branch == DefaultBranch
  }

  lemma StepKeepsOnlyDefaultBranch(l: Loop, input: Input)
    requires StepDefined(l, input) && OnlyDefaultBranch(l)
    ensures OnlyDefaultBranch(Step(l, input))
  {
    if input.Delivered? {
      assert l.pending[input.task] in l.pending;
    }
  }

  lemma {:induction false} RunKeepsOnlyDefaultBranch(l: Loop, inputs: seq<Input>)
    requires Runnable(l, inputs) && OnlyDefaultBranch(l)
    ensures OnlyDefaultBranch(Run(l, inputs).0)
    decreases |inputs|
  {
    if |inputs| > 0 && !l.state.done {
      StepKeepsOnlyDefaultBranch(l, inputs[0]);
      RunKeepsOnlyDefaultBranch(Step(l, inputs[0]), inputs[1..]);
    }
  }

  /** Whatever happens, a mergeable pull request based on any branch other
      than the default one is shown as unsynced. */
  lemma OtherBasesStayUnsynced(inputs: seq<Input>, pr: Models.PullRequest)
    requires Runnable(Start, inputs)
    requires pr.mergeable.Ok? && pr.baseName != DefaultBranch
    ensures Sync.Derive(Run(Start, inputs).0.state.branches, pr) == Sync.Unsynced
  {
    RunKeepsOnlyDefaultBranch(Start, inputs);
  }

  /** No error is shown and no rebase is under way. */
  predicate Quiet(l: Loop)
  {
    && l.state.errorMessage.None?
    && forall t :: t in l.pending ==> !t.RebasePR?
  }

  lemma StepKeepsQuiet(l: Loop, input: Input)
    requires StepDefined(l, input) && Quiet(l)
    requires input != Terminal(Key(Char('s')))
    ensures Quiet(Step(l, input))
  {
    if input.Delivered? {
      assert l.pending[input.task] in l.pending;
    }
  }

  lemma {:induction false} RunKeepsQuiet(l: Loop, inputs: seq<Input>)
    requires Runnable(l, inputs) && Quiet(l)
    requires forall i :: 0 <= i < |inputs| ==> inputs[i] != Terminal(Key(Char('s')))
    ensures Quiet(Run(l, inputs).0)
    decreases |inputs|
  {
    if |inputs| > 0 && !l.state.done {
      StepKeepsQuiet(l, inputs[0]);
      RunKeepsQuiet(Step(l, inputs[0]), inputs[1..]);
    }
  }

  /** In every run, a finished listing or branch lookup, failed or not,
      leaves the error message as it was. */
  lemma FetchDeliveryKeepsMessage(l: Loop, k: nat, o: TaskOutcome)
    requires StepDefined(l, Delivered(k, o))
    requires l.pending[k].FetchPRs? || l.pending[k].FetchBranch?
    ensures Step(l, Delivered(k, o)).state.errorMessage == l.state.errorMessage
  {
  }

  /** Failed listings and failed lookups are never shown: without a rebase
      request, no error message ever appears. */
  lemma FetchFailuresNeverShown(inputs: seq<Input>)
    requires Runnable(Start, inputs)
    requires forall i :: 0 <= i < |inputs| ==> inputs[i] != Terminal(Key(Char('s')))
    ensures Run(Start, inputs).0.state.errorMessage.None?
  {
    RunKeepsQuiet(Start, inputs);
  }

  /** When the startup lookup of the default branch fails, the index records
      the empty commit for it, so a mergeable pull request on that branch with
      a non-empty base commit shows as behind rather than unsynced. */
  lemma FailedLookupShowsBehind(pr: Models.PullRequest, err: string)
    requires pr.mergeable.Ok? && pr.baseName == DefaultBranch && pr.baseCommit != ""
    ensures Sync.Derive(Step(Start, Delivered(1, CommitOutcome(Failed(err)))).state.branches, pr) == Sync.Behind
  {
  }

  /** Pressing Down before the first listing arrives selects a row that does
      not exist, and a following Enter would index past the end. */
  lemma DownBeforeFirstListing()
    ensures Runnable(Start, [Terminal(Key(Down))])
    ensures var l := Run(Start, [Terminal(Key(Down))]).0;
      && l.selection == Some(0) && l.state.prs == []
      && !StepDefined(l, Terminal(Key(Enter)))
  {
    var l := Step(Start, Terminal(Key(Down)));
    assert l.selection == Some(0);
    assert Run(l, []) == (l, 0);
  }
}

=== FILE: sync.dfy ===
/** The status label shown for each pull request (`App::row` in src/main.rs):
    a pure function of the raw merge verdict and of whether the base branch's
    latest known commit is absent, equal to, or different from the commit the
    pull request was last synced against. */
module Sync {
  import opened Wrappers
  import Models

  datatype SyncStatus = UpToDate | Behind | Unsynced | Conflict | Unknown

  /** `None` when the base branch is not in the index, otherwise whether its
      known commit is the pull request's base commit. */
  function BaseMatch(branches: map<string, string>, pr: Models.PullRequest): Option<bool>
  {
    if pr.baseName in branches then Some(branches[pr.baseName] == pr.baseCommit) else None
  }

  function Derive(branches: map<string, string>, pr: Models.PullRequest): (s: SyncStatus)
    ensures s == UpToDate <==>
      pr.mergeable.Ok? && pr.baseName in branches && branches[pr.baseName] == pr.baseCommit
    ensures s == Behind <==>
      pr.mergeable.Ok? && pr.baseName in branches && branches[pr.baseName] != pr.baseCommit
    ensures s == Unsynced <==> pr.mergeable.Ok? && pr.baseName !in branches
    ensures s == Conflict <==> pr.mergeable.Conflict?
    ensures s == Unknown <==> pr.mergeable.Unknown?
  {
    match (pr.mergeable, BaseMatch(branches, pr))
    case (Ok, Some(true)) => UpToDate
    case (Ok, Some(false)) => Behind
    case (Ok, None) => Unsynced
    case (Conflict, _) => Conflict
    case _ => Unknown
  }

  /** The text of the status cell. */
  function Label(s: SyncStatus): string
  {
    match s
    case UpToDate => "Up to date"
    case Behind => "Behind"
    case Unsynced => "Unsynced"
    case Conflict => "Conflict"
    case Unknown => "Unknown"
  }

  /** Distinct statuses are shown with distinct labels. */
  lemma LabelsDistinct(s: SyncStatus, t: SyncStatus)
    requires s != t
    ensures Label(s) != Label(t)
  {
  }

  /** The status depends on the commit index only through the entry for the
      pull request's base branch. */
  lemma DependsOnlyOnBaseEntry(b1: map<string, string>, b2: map<string, string>, pr: Models.PullRequest)
    requires pr.baseName in b1 <==> pr.baseName in b2
    requires pr.baseName in b1 ==> b1[pr.baseName] == b2[pr.baseName]
    ensures Derive(b1, pr) == Derive(b2, pr)
  {
  }

  /** A verdict other than mergeable fixes the status whatever the index holds. */
  lemma VerdictWinsOverIndex(b1: map<string, string>, b2: map<string, string>, pr: Models.PullRequest)
    requires !pr.mergeable.Ok?
    ensures Derive(b1, pr) == Derive(b2, pr)
    ensures Derive(b1, pr) == (if pr.mergeable.Conflict? then Conflict else Unknown)
  {
  }

  /** An unknown base branch never reads as up to date or behind. */
  lemma AbsentBaseNeverCompared(branches: map<string, string>, pr: Models.PullRequest)
    requires pr.baseName !in branches
    ensures Derive(branches, pr) in {Unsynced, Conflict, Unknown}
  {
  }

  /** PR #42 against `main` at `abc123`: equal, moved, then forgotten base. */
  lemma BaseBranchScenario(pr: Models.PullRequest)
    requires pr.number == 42 && pr.baseName == "main" && pr.baseCommit == "abc123"
    requires pr.mergeable == Models.Ok
    ensures Derive(map["main" := "abc123"], pr) == UpToDate
    ensures Derive(map["main" := "def456"], pr) == Behind
    ensures Derive(map[], pr) == Unsynced
  {
  }
}

=== FILE: tasks.dfy ===
/** Background work spawned by the dashboard and the event each finished
    piece of work sends back (`App::fetch_prs`, `App::fetch_last_commit`,
    `App::open_externally` and `App::rebase` in src/main.rs). The external
    commands themselves are represented only by their outcome. */
module Tasks {
  import opened Wrappers
  import Models
  import opened Reconciler

  datatype Task =
    | FetchPRs
    | FetchBranch(branch: string)
    | OpenUrl(url: string)
    | RebasePR(number: int)

  /** The result of running an external command: its value, or the text of
      whatever error stopped it (spawn failure, bad exit, undecodable output). */
  datatype TaskResult<T> = Finished(value: T) | Failed(error: string)

  /** Exit status and (lossily decoded) standard error of a command that ran. */
  datatype CommandOutput = CommandOutput(success: bool, stderr: string)

  /** What a finished task produced, by kind of task. */
  datatype TaskOutcome =
    | ListOutcome(listed: TaskResult<seq<Models.PullRequest>>)
    | CommitOutcome(commit: TaskResult<string>)
    | CommandOutcome(output: TaskResult<CommandOutput>)

  /** Whether an outcome is one the task can produce. */
  predicate Fits(task: Task, outcome: TaskOutcome)
  {
    match task
    case FetchPRs => outcome.ListOutcome?
    case FetchBranch(_) => outcome.CommitOutcome?
    case OpenUrl(_) => outcome.CommandOutcome?
    case RebasePR(_) => outcome.CommandOutcome?
  }

  /** A failed listing is reported as an empty list, never as an error. */
  function ListEvent(listed: TaskResult<seq<Models.PullRequest>>): (e: AppEvent)
    ensures e.FetchedPRs?
    ensures listed.Finished? ==> e.prs == listed.value
    ensures listed.Failed? ==> e.prs == []
  {
    match listed
    case Finished(prs) => FetchedPRs(prs)
    case Failed(_) => FetchedPRs([])
  }

  /** A failed lookup records the empty commit for the branch, never an error. */
  function CommitEvent(branch: string, commit: TaskResult<string>): (e: AppEvent)
    ensures e.FetchedBranchCommit? && e.branch == branch
    ensures commit.Finished? ==> e.commit == commit.value
    ensures commit.Failed? ==> e.commit == ""
  {
    match commit
    case Finished(sha) => FetchedBranchCommit(branch, sha)
    case Failed(_) => FetchedBranchCommit(branch, "")
  }

  /** A rebase reports its standard error on a bad exit and the error text when
      the command could not run; a successful rebase sends nothing. */
  function RebaseEvent(output: TaskResult<CommandOutput>): (e: Option<AppEvent>)
    ensures e.None? <==> output.Finished? && output.value.success
    ensures output.Failed? ==> e == Some(Error(output.error))
    ensures output.Finished? && !output.value.success ==> e == Some(Error(output.value.stderr))
  {
    match output
    case Finished(out) => if out.success then None else Some(Error(out.stderr))
    case Failed(err) => Some(Error(err))
  }

  /** The event a finished task sends, if any. Opening a URL never reports
      anything, and only a rebase can report an error. */
  function CompletionEvent(task: Task, outcome: TaskOutcome): (e: Option<AppEvent>)
    requires Fits(task, outcome)
    ensures task.FetchPRs? ==> e.Some? && e.value.FetchedPRs?
    ensures task.FetchBranch? ==> e.Some? && e.value.FetchedBranchCommit? && e.value.branch == task.branch
    ensures task.OpenUrl? ==> e.None?
    ensures e.Some? && e.value.Error? ==> task.RebasePR?
  {
    match task
    case FetchPRs => Some(ListEvent(outcome.listed))
    case FetchBranch(branch) => Some(CommitEvent(branch, outcome.commit))
    case OpenUrl(_) => None
    case RebasePR(_) => RebaseEvent(outcome.output)
  }

  /** Rebasing is only attempted on a pull request the service deems mergeable;
      any other verdict is silently ignored. */
  function RebaseTask(pr: Models.PullRequest): (t: Option<Task>)
    ensures t.Some? <==> pr.mergeable.Ok?
    ensures t.Some? ==> t.value == RebasePR(pr.number)
  {
    if pr.mergeable != Models.Ok then None else Some(RebasePR(pr.number))
  }
}

=== FILE: text.dfy ===
/** String splitting and joining as the standard library's `str::split` with a
    character separator and itertools' `join` with a glue string behave, and
    the per-character replacement they amount to. */
module Text {

  /** `s` with every occurrence of `from` replaced by `to`. */
  function Replace(s: string, from: char, to: char): string
  {
    seq(|s|, i requires 0 <= i < |s| => if s[i] == from then to else s[i])
  }

  lemma ReplaceCons(s: string, from: char, to: char)
    requires |s| > 0
    ensures Replace(s, from, to) == [if s[0] == from then to else s[0]] + Replace(s[1..], from, to)
  {
  }

  /** The pieces joined with `glue` between consecutive ones. */
  function Join(parts: seq<string>, glue: string): string
    decreases |parts|
  {
    if |parts| == 0 then ""
    else if |parts| == 1 then parts[0]
    else parts[0] + glue + Join(parts[1..], glue)
  }

  lemma JoinPrepend(parts: seq<string>, c: char, glue: string)
    requires |parts| >= 1
    ensures Join([[c] + parts[0]] + parts[1..], glue) == [c] + Join(parts, glue)
  {
    var q := [[c] + parts[0]] + parts[1..];
    assert q[1..] == parts[1..];
  }

  lemma JoinEmptyHead(parts: seq<string>, glue: string)
    requires |parts| >= 1
    ensures Join([""] + parts, glue) == glue + Join(parts, glue)
  {
    assert ([""] + parts)[1..] == parts;
  }

  /** The maximal pieces of `s` between occurrences of `sep`: never empty,
      one more piece than there are separators, no piece holds the separator,
      and joining them back with the separator restores `s`. */
  function Split(s: string, sep: char): (parts: seq<string>)
    ensures |parts| == multiset(s)[sep] + 1
    ensures forall i :: 0 <= i < |parts| ==> sep !in parts[i]
    ensures Join(parts, [sep]) == s
    decreases |s|
  {
    if |s| == 0 then [""]
    else
      var rest := Split(s[1..], sep);
      assert s == [s[0]] + s[1..];
      if s[0] == sep then
        JoinEmptyHead(rest, [sep]);
        [""] + rest
      else
        JoinPrepend(rest, s[0], [sep]);
        [[s[0]] + rest[0]] + rest[1..]
  }

  /** Splitting on a character and joining with another replaces the first
      character by the second, everywhere and nowhere else. */
  lemma {:induction false} JoinSplitIsReplace(s: string, sep: char, to: char)
    ensures Join(Split(s, sep), [to]) == Replace(s, sep, to)
    decreases |s|
  {
    if |s| > 0 {
      var rest := Split(s[1..], sep);
      JoinSplitIsReplace(s[1..], sep, to);
      ReplaceCons(s, sep, to);
      if s[0] == sep {
        JoinEmptyHead(rest, [to]);
      } else {
        JoinPrepend(rest, s[0], [to]);
      }
    }
  }
}

=== FILE: wrappers.dfy ===
/** Optional values, standing in for Rust's `Option`. */
module Wrappers {

  datatype Option<+T> = None | Some(value: T)
}
